=== FILE: README.md ===
# MMM-Wunderlist-Enhanced, modelled in Dafny

MMM-Wunderlist-Enhanced is a MagicMirror module that shows Wunderlist task
lists on a dashboard. It has two halves:

- a **display module** (`MMM-Wunderlist-Enhanced.js`). It decides which
  cached tasks of each configured list reach the screen and lays out one
  table row per task;
- a **node helper** (`node_helper.js`). It keeps one fetcher per remote list
  in a registry, broadcasts a snapshot (list name to tasks) to the display,
  and builds a directory of user initials.

This project models the selection and layout logic of the first half and
the registry and notification handling of the second. Everything is pure
functions over immutable datatypes.

| file | module | what it holds |
|---|---|---|
| `wrappers.dfy` | `Wrappers` | `Option` (JavaScript's `undefined`) and `Result` (a handler that throws) |
| `seqs.dfy` | `Seqs` | the JavaScript built-ins the code relies on: `reverse`, `slice(0, n)`, substring search, and "assign keys in order" object building; subsequence lemmas |
| `todos.dfy` | `Todos` | the task record both halves share |
| `display.dfy` | `Display` | `getTodos`, `getTitleRow`, `getBullet`, `getRow`, and the per-list loop of `getDom` |
| `registry.dfy` | `Registry` | the fetcher registry: `createFetcher`, `broadcastTodos` |
| `node_helper.dfy` | `NodeHelper` | the initials of `getUsers`, the `addLists` selection, and `socketNotificationReceived` as a state-transition function |

Rows are abstract. A title row carries its column span and a heading (the
list name, plus the stored total for summarized lists). A task row is a
sequence of cells: bullet, content (brightness and a label with an optional
inline icon before or after the title), assignee badge, and deadline.

The fetcher (`fetcher.js`) is not part of this model. It appears only as an
abstract record: list id, name, reload interval, cached items, and counters
of the `startFetch` and `broadcastItems` calls made on it. A new fetcher is
assumed to start with an empty cache.

One observation from the layout proofs: `getTitleRow` adds a column unless
`iconPosition` is the string `"inline"`. No documented position has that
value. So for `"inline_left"`, `"inline_right"` and `"none"`, the title row
spans one column more than a task row has cells.
`Display.TitleSpanVersusRowWidth` states exactly when the two agree. The
model keeps the count as written.

## Model

| member | source | states |
|---|---|---|
| `Display.GetTodos` | MMM-Wunderlist-Enhanced.js:61-71 | an absent list gives no tasks; otherwise a sequence of the same length that is the stored list read back to front iff `order` is exactly "reversed", and the stored list unchanged for any other order |
| `Display.GetTodosReversedRoundTrip` | MMM-Wunderlist-Enhanced.js:61-71 | for every list name, present or absent, reversing the "reversed" view gives back the natural view |
| `Display.GetTodosReversedExample` | MMM-Wunderlist-Enhanced.js:65-68 | tasks [A, B] in reversed order are shown as [B, A] |
| `Seqs.Reverse` | MMM-Wunderlist-Enhanced.js:65-68 | the copy-then-reverse has the same length and element i is element n-1-i of the input |
| `Seqs.Take` | MMM-Wunderlist-Enhanced.js:185 | `slice(0, n)` is a prefix whose length follows JavaScript's end-index rules (negative n counts from the end); never longer than a non-negative n |
| `Seqs.ConcatBlocks` | MMM-Wunderlist-Enhanced.js:181-204 | appending blocks of rows in turn leaves block k exactly at the offset given by the lengths of the blocks before it |
| `Display.TitleColumnCount` | MMM-Wunderlist-Enhanced.js:95-101 | the span is between 1 and 4; it is 1 exactly when assignee and deadline are hidden and the position is "inline", and 4 exactly when both are shown and the position is anything else |
| `Display.TitleSpanVersusRowWidth` | MMM-Wunderlist-Enhanced.js:95-133 | the title span is the row width or one more, and equals it iff the icon position is "left", "right" or "inline" |
| `Display.GetBullet` | MMM-Wunderlist-Enhanced.js:103-114 | star iff starred; no-bullet iff unstarred with bullets off; right bullet iff unstarred, bullets on and position "right" or "inline_right"; left bullet otherwise |
| `Display.StarIgnoresConfig` | MMM-Wunderlist-Enhanced.js:103-105 | a starred task shows the star under every configuration |
| `Display.BulletMatchesSide` | MMM-Wunderlist-Enhanced.js:103-133 | for an unstarred task with bullets on, a bullet cell shows the left-hand bullet iff it stands before the title and the right-hand one iff after it; an inline bullet is the left-hand one before the title ("inline_left") and the right-hand one after it ("inline_right") |
| `Display.AssigneeBadge` | MMM-Wunderlist-Enhanced.js:135-139 | a badge appears iff a task has a non-zero assignee and a user directory has arrived; it shows that user's initial, or nothing known when the id is missing |
| `Display.RowCells` | MMM-Wunderlist-Enhanced.js:116-163 | a row has 1 + [left or right] + [showAssignee] + [showDeadline] cells; exactly one content cell, bright iff starred or all titles bright, carrying the title with the bullet inlined before it iff "inline_left" and after it iff "inline_right"; a bullet cell first iff "left" and second (after the content) iff "right"; an assignee cell iff showAssignee and a deadline cell (last) iff showDeadline; every icon shown is that task's bullet |
| `Display.TaskRows` | MMM-Wunderlist-Enhanced.js:200-202 | one task row per displayed task, in order |
| `Display.Summarize` | MMM-Wunderlist-Enhanced.js:191-195 | every kept task is starred or its title contains the non-empty pattern; the result is an order-preserving subsequence of the input; each task occurs as often as in the input if it qualifies and not at all otherwise |
| `Display.SummarizeEmptyPattern` | MMM-Wunderlist-Enhanced.js:191-195 | with an empty pattern exactly the starred tasks are kept |
| `Display.SummarizeIdempotent` | MMM-Wunderlist-Enhanced.js:191-195 | filtering an already summarized list changes nothing |
| `Display.SummarizeExampleFilter` | MMM-Wunderlist-Enhanced.js:191-195 | with pattern "urgent", ["buy milk", "urgent: call bank", starred "gift"] filters to the last two, in order |
| `Display.SummarizeExample` | MMM-Wunderlist-Enhanced.js:184-195 | in a summarized list of those three tasks the shown tasks are the last two while the heading counts 3 |
| `Display.HeadingOf` | MMM-Wunderlist-Enhanced.js:187-198 | the heading names the list and carries a count iff the list is summarized |
| `Display.Displayed` | MMM-Wunderlist-Enhanced.js:184-198 | the shown tasks are an order-preserving subsequence of the first `maximumEntries` tasks of the ordered list (truncation comes before filtering), so at most that many; unsummarized lists show the truncated list unfiltered; summarized lists show exactly the qualifying tasks of the truncated list |
| `Display.Section` | MMM-Wunderlist-Enhanced.js:183-203 | a list contributes its title row (list span and heading) followed by the rows of its displayed tasks, at most 1 + `maximumEntries` rows |
| `Display.SectionCountIndependent` | MMM-Wunderlist-Enhanced.js:184-189 | a summarized list's count is the stored total (0 when absent), unaffected by order, truncation and pattern |
| `Display.SectionHeadings` | MMM-Wunderlist-Enhanced.js:183-203 | a section holds exactly one title row, naming its list |
| `Display.Sections` | MMM-Wunderlist-Enhanced.js:181-204 | the rows are the lists' sections laid end to end: list k's title row and task rows occupy exactly the rows from offset `SectionStart(k)` to `SectionStart(k+1)`, the table ends at the last offset, and the title rows name the given lists, one each, in order |
| `Display.SectionsRowBudget` | MMM-Wunderlist-Enhanced.js:183-203 | for a non-negative `maximumEntries` the rows number at most lists × (1 + `maximumEntries`) |
| `Display.GetDom` | MMM-Wunderlist-Enhanced.js:181-204 | for each configured list, in configuration order, its block of rows is exactly its title row followed by the rows of its displayed tasks; the title rows are the configured lists in order; the table has at most lists × (1 + `maximumEntries`) rows |
| `Registry.CreateFetcher` | node_helper.js:42-76 | the key set gains exactly the given id and other entries are untouched; a fresh id gets one new fetcher recorded under the given name and interval; a known id builds nothing, keeps its original name and items, takes the new interval and broadcasts once; the fetcher is started once more in both branches; the registry invariant is kept |
| `Registry.CreateFetcherRepeat` | node_helper.js:46-73 | repeating a call registers and constructs nothing new and keeps the recorded name |
| `Registry.CreateAllKeys` | node_helper.js:46-72 | after any sequence of calls the key set is the old keys plus the ids passed, and the invariant (one fetcher per id, each for its own list) holds |
| `Registry.CreateAllFrame` | node_helper.js:64-72 | entries whose id is never passed are left as they were |
| `Registry.CreateAllLastInterval` | node_helper.js:68-73 | each id passed runs at the interval of its last call |
| `Registry.OneFetcherPerId` | node_helper.js:46-67 | from an empty registry, the fetchers ever constructed number exactly the distinct ids passed |
| `Registry.BroadcastTodos` | node_helper.js:78-84 | the snapshot's keys are exactly the recorded names of the registered fetchers; each name maps to the items of the last enumerated fetcher recorded under it |
| `Registry.SnapshotDistinctNames` | node_helper.js:78-84 | when recorded names are distinct, every fetcher's items appear under its name, whatever the enumeration order |
| `Seqs.AssignAllLastWins` | node_helper.js:32-35 | an object built by assigning keys in order has exactly the assigned keys, each holding its last assigned value |
| `NodeHelper.InitialOf` | node_helper.js:34 | the first character of the name when it is non-empty, else the first of the email; undefined exactly when the name is empty and the email is empty; a user with neither a name nor an email makes the handler throw |
| `NodeHelper.InitialFromEmail` | node_helper.js:34 | a user without a name and email "x@y.com" gets initial 'x' |
| `NodeHelper.Initials` | node_helper.js:30-36 | the handler throws iff some user has neither a name nor an email; otherwise the directory's keys are the user ids, and each id maps to the initial of its last record |
| `NodeHelper.AddListsCalls` | node_helper.js:112-118 | every call is for a remote list (same id and title) whose title is configured, with interval `config.interval * 1000`; each remote list gets as many calls as it occurs when its title is configured and none otherwise; the calls come in the remote lists' order |
| `NodeHelper.AddListsRegistersConfigured` | node_helper.js:112-118 | `addLists` adds exactly the ids of the configured remote lists, every one running at the configured interval in milliseconds, and leaves the other entries alone |
| `NodeHelper.Step` | node_helper.js:87-128 | `started` becomes true only on the client's initialisation and is never cleared; CONFIG before start stores the payload and creates the client, and is a no-op once started; addLists sends nothing and changes only the registry: with no configuration (and so no remote lists) nothing at all, otherwise by exactly the `createFetcher` calls of `AddListsCalls`, one per configured remote list in the lists' order; CONNECTED sends one TASKS snapshot keyed by the fetchers' recorded names; the lists completion stores the remote lists and sends STARTED; the users completion sends USERS with the directory of initials; the handler fails exactly when addLists arrives before the remote lists, or with remote lists but no configuration, or getUsers arrives before a client exists, or the users arrive and one has neither a name nor an email |
| `NodeHelper.StepAddListsRegisters` | node_helper.js:112-118 | a handled addLists succeeds once lists and configuration exist, registers exactly the configured remote ids at the configured interval in milliseconds, keeps the registry invariant and leaves other entries untouched |
| `NodeHelper.StepKeepsRegistryValid` | node_helper.js:87-128 | no notification breaks the one-fetcher-per-id invariant |
| `NodeHelper.AddListsIgnoresPayload` | node_helper.js:112-118 | addLists reads the configured list names, not its own payload |
| `NodeHelper.ConfigBeforeStartReplaces` | node_helper.js:90-97 | a second CONFIG before initialisation completes still replaces the configuration, and does not start the helper |
| `NodeHelper.ConfigAfterStartIgnored` | node_helper.js:90-109 | once initialisation has completed, a later CONFIG leaves the first configuration in place |

## Left out

- HTML: the templates, `String.format`, the table's CSS classes and the `spaced` option (MMM-Wunderlist-Enhanced.js:80-93, 175-179, 204). Rows are abstract cell sequences.
- Deadline text: `moment`, `relativeDates`, `translate` and `capFirst` depend on the clock and the locale (MMM-Wunderlist-Enhanced.js:141-160, 166-168). A deadline cell only records a task's due date.
- Display.AlwaysShown: `title.search(pattern)` is a regular-expression search. It is modelled as plain substring containment, so patterns with regex metacharacters are not modelled.
- The display's socket handling, `start`, and the `getUsers` request `getDom` sends are transport and timing (MMM-Wunderlist-Enhanced.js:33-59, 171-173). So are the `fade` options, which the code never reads.
- The remote SDK (node_helper.js:22-28, 99-109, 123-125) is foreign asynchronous code. Its requests, failures and logging are not modelled; its completions are the events `ClientInitialized`, `ListsLoaded` and `UsersLoaded`.
- The fetcher's event wiring (node_helper.js:53-62) is not modelled. That covers the TASKS broadcast after a fetch or `broadcastItems`, and `FETCH_ERROR`. It depends on `fetcher.js`, which is not part of this model. The same goes for the fetcher's timers, busy flag and cache retention.
- Registry.BroadcastTodos: the enumeration order of a `for ... in` loop over the fetchers object is a parameter constrained to list each key once. The engine's concrete order (ascending for integer-like keys) is not modelled.
- Credentials (`accessToken`, `clientID`) and the fetcher constructor's `showAssignee` argument are not modelled.
- Numbers: `maximumEntries`, `interval` and ids are integers. Fractional or non-numeric configuration values are not modelled. An assignee id of 0 counts as absent, as JavaScript truthiness makes it.
- NodeHelper.InitialOf: JavaScript's `name[0]` is one UTF-16 code unit, while a Dafny `char` here is a whole character, so names starting with a character outside the Basic Multilingual Plane get only half a surrogate pair in JavaScript and the whole character here. A falsy name (`null`, `undefined` or `""`) is modelled as the empty string, and a missing email as `None`.

=== FILE: display.dfy ===
/** The front-end module (MMM-Wunderlist-Enhanced.js): which cached tasks of
    each configured list reach the screen, and how each table row is laid out.
    Rows are abstract: a title row carries its column span and heading, a task
    row its sequence of cells. HTML text, dates and translation are not
    modelled. */
module Display {
  import opened Wrappers
  import opened Seqs
  import opened Todos

  /** The module configuration options the selection and layout logic read.
      `order` and `iconPosition` are free strings, compared literally, as the JavaScript
      module does. */
  datatype Config = Config(
    maximumEntries: int,
    order: string,
    lists: seq<string>,
    summarize: seq<string>,
    alwaysShowPattern: string,
    allBrightTitles: bool,
    showDeadline: bool,
    showAssignee: bool,
    showBullets: bool,
    iconPosition: string)

  /** The documented defaults. */
  const Defaults := Config(10, "normal", ["inbox"], [], "", false, true, true, false, "left")

  /** The four icons a task can carry. Names follow the JavaScript module's
      `html` templates: `BulletLeft` draws a right-pointing chevron and `BulletRight`
      a left-pointing one. */
  datatype Icon = Star | BulletLeft | BulletRight | BulletNone

  datatype Brightness = Bright | Normal

  /** The text of a content cell: a task's title with an optional inline
      icon before or after it. */
  datatype Label = Label(prefix: Option<Icon>, text: string, suffix: Option<Icon>)

  /** Contents of an assignee cell: empty, or an assignee badge showing the
      user's initial (`None` when the directory has no initial for that id,
      which the JavaScript module renders as `undefined`). */
  datatype Badge = NoBadge | Initial(initial: Option<char>)

  datatype Cell =
    | BulletCell(icon: Icon)
    | ContentCell(brightness: Brightness, caption: Label)
    | AssigneeCell(badge: Badge)
    | DeadlineCell(due: Option<string>)  // formatting of the date is not modelled

  /** A list heading: the list name, and for summarized lists the total count
      shown in parentheses after it. */
  datatype Heading = Heading(listName: string, total: Option<nat>)

  datatype Row = TitleRow(columns: nat, heading: Heading) | TaskRow(cells: seq<Cell>)

  /** The broadcast snapshot: list name to its cached tasks. */
  type Tasks = map<string, seq<Task>>

  /** The user directory received from the helper: user id to initial. */
  type Users = map<UserId, Option<char>>

  function Indicator(b: bool): nat {
    if b then 1 else 0
  }

  // ---------------------------------------------------------------- getTodos

  /** The tasks of list `listName` in display order: a copy of the stored
      sequence, reversed when `order` is exactly "reversed"; no tasks when the
      snapshot has no such list. */
  function GetTodos(tasks: Tasks, listName: string, order: string): (r: seq<Task>)
    ensures listName !in tasks ==> r == []
    ensures listName in tasks ==> |r| == |tasks[listName]|
    ensures listName in tasks && order == "reversed" ==>
              forall i :: 0 <= i < |r| ==> r[i] == tasks[listName][|r| - 1 - i]
    ensures listName in tasks && order != "reversed" ==> r == tasks[listName]
  {
    if listName !in tasks then []
    else if order == "reversed" then Reverse(tasks[listName])
    else tasks[listName]
  }

  /** Reversed order is undone by reversing again: both orders present the
      same tasks. */
  lemma GetTodosReversedRoundTrip(tasks: Tasks, listName: string)
    ensures Reverse(GetTodos(tasks, listName, "reversed")) == GetTodos(tasks, listName, "normal")
  {
    if listName in tasks {
      ReverseInvolutive(tasks[listName]);
    }
  }

  /** Two tasks in reversed order come out swapped. */
  lemma GetTodosReversedExample(a: Task, b: Task)
    ensures GetTodos(map["todo" := [a, b]], "todo", "reversed") == [b, a]
  {
    assert Reverse([a, b]) == Reverse([b]) + [a];
  }

  // ------------------------------------------------------------- getTitleRow

  /** Column span of a list's title row. */
  function TitleColumnCount(cfg: Config): (n: nat)
    ensures 1 <= n <= 4
    ensures n == 1 <==> !cfg.showAssignee && !cfg.showDeadline && cfg.iconPosition == "inline"
    ensures n == 4 <==> cfg.showAssignee && cfg.showDeadline && cfg.iconPosition != "inline"
  {
    1 + Indicator(cfg.showAssignee) + Indicator(cfg.showDeadline) + Indicator(cfg.iconPosition != "inline")
  }

  /** The title row of a list. */
  function TitleRowOf(cfg: Config, heading: Heading): Row {
    TitleRow(TitleColumnCount(cfg), heading)
  }

  // --------------------------------------------------------------- getBullet

  /** The icon shown for a task. */
  function GetBullet(cfg: Config, starred: bool): (icon: Icon)
    ensures icon == Star <==> starred
    ensures icon == BulletNone <==> !starred && !cfg.showBullets
    ensures icon == BulletRight <==>
              !starred && cfg.showBullets && (cfg.iconPosition == "right" || cfg.iconPosition == "inline_right")
    ensures icon == BulletLeft <==>
              !starred && cfg.showBullets && cfg.iconPosition != "right" && cfg.iconPosition != "inline_right"
  {
    if starred then Star
    else if !cfg.showBullets then BulletNone
    else if cfg.iconPosition == "right" || cfg.iconPosition == "inline_right" then BulletRight
    else BulletLeft
  }

  /** A starred task shows the star whatever the configuration says. */
  lemma StarIgnoresConfig(cfg1: Config, cfg2: Config)
    ensures GetBullet(cfg1, true) == GetBullet(cfg2, true)
  {
  }

  // ------------------------------------------------------------------ getRow

  /** Number of cells in a task row. */
  function RowWidth(cfg: Config): nat {
    1 + Indicator(cfg.iconPosition == "left" || cfg.iconPosition == "right")
      + Indicator(cfg.showAssignee) + Indicator(cfg.showDeadline)
  }

  /** Index of the content cell in a task row. */
  function ContentIndex(cfg: Config): nat {
    if cfg.iconPosition == "left" then 1 else 0
  }

  /** The assignee badge: shown when a task has a (truthy, non-zero)
      assignee and a user directory has arrived. */
  function AssigneeBadge(users: Option<Users>, t: Task): (b: Badge)
    ensures b.Initial? <==> users.Some? && t.assignee.Some? && t.assignee.value != 0
    ensures b.Initial? && t.assignee.value in users.value ==> b.initial == users.value[t.assignee.value]
    ensures b.Initial? && t.assignee.value !in users.value ==> b.initial == None
  {
    if t.assignee.Some? && t.assignee.value != 0 && users.Some? then
      Initial(if t.assignee.value in users.value then users.value[t.assignee.value] else None)
    else NoBadge
  }

  /** The content cell: the title, with the bullet inlined before or after it
      for the inline positions, bright when starred or all titles are bright. */
  function ContentOf(cfg: Config, t: Task): Cell {
    var bullet := GetBullet(cfg, t.starred);
    ContentCell(
      if t.starred || cfg.allBrightTitles then Bright else Normal,
      Label(
        if cfg.iconPosition == "inline_left" then Some(bullet) else None,
        t.title,
        if cfg.iconPosition == "inline_right" then Some(bullet) else None))
  }

  /** The cells of a task row, left to right. */
  function RowCells(cfg: Config, users: Option<Users>, t: Task): (cells: seq<Cell>)
    ensures |cells| == RowWidth(cfg)
    // the content cell
    ensures cells[ContentIndex(cfg)].ContentCell?
    ensures cells[ContentIndex(cfg)].caption.text == t.title
    ensures cells[ContentIndex(cfg)].brightness == Bright <==> t.starred || cfg.allBrightTitles
    ensures cells[ContentIndex(cfg)].caption.prefix.Some? <==> cfg.iconPosition == "inline_left"
    ensures cells[ContentIndex(cfg)].caption.suffix.Some? <==> cfg.iconPosition == "inline_right"
    ensures forall i :: 0 <= i < |cells| && i != ContentIndex(cfg) ==> !cells[i].ContentCell?
    // a separate bullet cell: first for "left", right after the content for "right"
    ensures forall i :: 0 <= i < |cells| ==>
              (cells[i].BulletCell? <==> (cfg.iconPosition == "left" && i == 0) || (cfg.iconPosition == "right" && i == 1))
    // every icon shown is that task's bullet
    ensures forall i :: 0 <= i < |cells| && cells[i].BulletCell? ==> cells[i].icon == GetBullet(cfg, t.starred)
    ensures cells[ContentIndex(cfg)].caption.prefix.Some? ==> cells[ContentIndex(cfg)].caption.prefix.value == GetBullet(cfg, t.starred)
    ensures cells[ContentIndex(cfg)].caption.suffix.Some? ==> cells[ContentIndex(cfg)].caption.suffix.value == GetBullet(cfg, t.starred)
    // assignee and deadline cells
    ensures (exists i :: 0 <= i < |cells| && cells[i].AssigneeCell?) <==> cfg.showAssignee
    ensures (exists i :: 0 <= i < |cells| && cells[i].DeadlineCell?) <==> cfg.showDeadline
    ensures forall i :: 0 <= i < |cells| && cells[i].AssigneeCell? ==> cells[i].badge == AssigneeBadge(users, t)
    ensures forall i :: 0 <= i < |cells| && cells[i].DeadlineCell? ==> cells[i].due == t.due && i == |cells| - 1
  {
    var content := ContentOf(cfg, t);
    var bullet := BulletCell(GetBullet(cfg, t.starred));
    var core :=
      if cfg.iconPosition == "left" then [bullet, content]
      else if cfg.iconPosition == "right" then [content, bullet]
      else [content];
    var withAssignee := if cfg.showAssignee then core + [AssigneeCell(AssigneeBadge(users, t))] else core;
    assert cfg.showAssignee ==> withAssignee[|core|].AssigneeCell?;
    var cells := if cfg.showDeadline then withAssignee + [DeadlineCell(t.due)] else withAssignee;
    assert cfg.showAssignee ==> cells[|core|].AssigneeCell?;
    assert cfg.showDeadline ==> cells[|withAssignee|].DeadlineCell?;
    cells
  }

  /** The bullet chosen for a plain (unstarred, bulleted) task matches where
      the row puts it: the left-hand bullet before the title, the right-hand
      one after it, whether as a separate cell or inlined in the caption. */
  lemma BulletMatchesSide(cfg: Config, users: Option<Users>, t: Task)
    requires !t.starred && cfg.showBullets
    ensures forall i :: 0 <= i < |RowCells(cfg, users, t)| && RowCells(cfg, users, t)[i].BulletCell? ==>
              (RowCells(cfg, users, t)[i].icon == BulletLeft <==> i < ContentIndex(cfg))
    ensures forall i :: 0 <= i < |RowCells(cfg, users, t)| && RowCells(cfg, users, t)[i].BulletCell? ==>
              (RowCells(cfg, users, t)[i].icon == BulletRight <==> ContentIndex(cfg) < i)
    ensures RowCells(cfg, users, t)[ContentIndex(cfg)].caption.prefix == (if cfg.iconPosition == "inline_left" then Some(BulletLeft) else None)
    ensures RowCells(cfg, users, t)[ContentIndex(cfg)].caption.suffix == (if cfg.iconPosition == "inline_right" then Some(BulletRight) else None)
  {
  }

  /** The title row spans at least as many columns as a task row has cells,
      and exactly as many only when the icon position is "left", "right" or
      the value "inline" (which no documented position uses); for the inline
      and "none" positions the title spans one column more. */
  lemma TitleSpanVersusRowWidth(cfg: Config)
    ensures RowWidth(cfg) <= TitleColumnCount(cfg) <= RowWidth(cfg) + 1
    ensures TitleColumnCount(cfg) == RowWidth(cfg) <==>
              cfg.iconPosition in {"left", "right", "inline"}
  {
  }

  /** Rows for a sequence of tasks, one each, in order. */
  function TaskRows(cfg: Config, users: Option<Users>, todos: seq<Task>): (rows: seq<Row>)
    ensures |rows| == |todos|
    ensures forall i :: 0 <= i < |todos| ==> rows[i] == TaskRow(RowCells(cfg, users, todos[i]))
  {
    seq(|todos|, i requires 0 <= i < |todos| => TaskRow(RowCells(cfg, users, todos[i])))
  }

  // ---------------------------------------------------------- summarization

  /** The summarize filter's test: starred, or the title contains the
      always-show pattern (an empty pattern is falsy and matches nothing). */
  predicate AlwaysShown(t: Task, pattern: string) {
    t.starred || (pattern != "" && Contains(t.title, pattern))
  }

  /** The tasks a summarized list keeps. */
  function Summarize(todos: seq<Task>, pattern: string): (r: seq<Task>)
    ensures forall t :: t in r ==> AlwaysShown(t, pattern)
    ensures IsSubsequence(r, todos)
    ensures forall t :: multiset(r)[t] == if AlwaysShown(t, pattern) then multiset(todos)[t] else 0
    decreases |todos|
  {
    if todos == [] then []
    else
      var rest := Summarize(todos[1..], pattern);
      assert todos == [todos[0]] + todos[1..];
      if AlwaysShown(todos[0], pattern) then [todos[0]] + rest else rest
  }

  /** With an empty pattern only starred tasks survive, and all of them do. */
  lemma SummarizeEmptyPattern(todos: seq<Task>)
    ensures forall t :: t in Summarize(todos, "") ==> t.starred
    ensures forall t :: t in todos && t.starred ==> t in Summarize(todos, "")
  {
    var r := Summarize(todos, "");
    forall t | t in todos && t.starred
      ensures t in r
    {
      assert multiset(todos)[t] > 0;
    }
  }

  /** Summarizing is idempotent. */
  lemma {:induction false} SummarizeIdempotent(todos: seq<Task>, pattern: string)
    ensures Summarize(Summarize(todos, pattern), pattern) == Summarize(todos, pattern)
    decreases |todos|
  {
    if todos != [] {
      SummarizeIdempotent(todos[1..], pattern);
      var rest := Summarize(todos[1..], pattern);
      if AlwaysShown(todos[0], pattern) {
        assert ([todos[0]] + rest)[1..] == rest;
      }
    }
  }

  lemma NoUrgentInBuyMilk()
    ensures !Contains("buy milk", "urgent")
  {
    var text := "buy milk";
    forall i | 0 <= i <= |text|
      ensures !OccursAt(text, "urgent", i)
    {
      if i <= |text| - 6 {
        assert text[i + 1] != 'r';
        assert text[i..i + 6][1] == text[i + 1];
      }
    }
  }

  /** The summarize filter on three tasks with pattern "urgent" keeps the
      matching and the starred one, in order. */
  lemma SummarizeExampleFilter()
    ensures Summarize([Task("buy milk", false, None, None), Task("urgent: call bank", false, None, None),
                       Task("gift", true, None, None)], "urgent")
         == [Task("urgent: call bank", false, None, None), Task("gift", true, None, None)]
  {
    var milk := Task("buy milk", false, None, None);
    var bank := Task("urgent: call bank", false, None, None);
    var gift := Task("gift", true, None, None);
    NoUrgentInBuyMilk();
    assert OccursAt(bank.title, "urgent", 0);
    var todos := [milk, bank, gift];
    assert todos[1..] == [bank, gift];
    assert [bank, gift][1..] == [gift];
    assert [gift][1..] == [];
    assert Summarize([gift], "urgent") == [gift];
    assert Summarize([bank, gift], "urgent") == [bank, gift];
  }

  /** A summarized list with pattern "urgent" shows the filtered tasks while
      its heading still counts all three. */
  lemma SummarizeExample()
    ensures var todos := [Task("buy milk", false, None, None), Task("urgent: call bank", false, None, None),
                          Task("gift", true, None, None)];
            var cfg := Defaults.(lists := ["errands"], summarize := ["errands"], alwaysShowPattern := "urgent");
            && Displayed(cfg, map["errands" := todos], "errands") == todos[1..]
            && HeadingOf(cfg, map["errands" := todos], "errands").total == Some(3)
  {
    SummarizeExampleFilter();
    var todos := [Task("buy milk", false, None, None), Task("urgent: call bank", false, None, None),
                  Task("gift", true, None, None)];
    assert todos[1..] == [Task("urgent: call bank", false, None, None), Task("gift", true, None, None)];
    assert Take(todos, 10) == todos;
  }

  // ------------------------------------------------------------------ getDom

  /** Total number of tasks stored for a list; 0 when absent. */
  function StoredCount(tasks: Tasks, listName: string): nat {
    if listName in tasks then |tasks[listName]| else 0
  }

  /** The heading of a list: summarized lists show the stored total. */
  function HeadingOf(cfg: Config, tasks: Tasks, listName: string): (h: Heading)
    ensures h.listName == listName
    ensures h.total.Some? <==> listName in cfg.summarize
  {
    if listName in cfg.summarize then Heading(listName, Some(StoredCount(tasks, listName)))
    else Heading(listName, None)
  }

  /** The tasks of one list that reach the screen: ordered, truncated to
      `maximumEntries`, then, for summarized lists, filtered. */
  function Displayed(cfg: Config, tasks: Tasks, listName: string): (r: seq<Task>)
    ensures IsSubsequence(r, Take(GetTodos(tasks, listName, cfg.order), cfg.maximumEntries))
    ensures IsSubsequence(r, GetTodos(tasks, listName, cfg.order))
    ensures 0 <= cfg.maximumEntries ==> |r| <= cfg.maximumEntries
    ensures listName !in cfg.summarize ==>
              r == Take(GetTodos(tasks, listName, cfg.order), cfg.maximumEntries)
    ensures listName in cfg.summarize ==>
              forall t :: multiset(r)[t] ==
                if AlwaysShown(t, cfg.alwaysShowPattern)
                then multiset(Take(GetTodos(tasks, listName, cfg.order), cfg.maximumEntries))[t]
                else 0
  {
    var ordered := GetTodos(tasks, listName, cfg.order);
    var todos := Take(ordered, cfg.maximumEntries);
    PrefixIsSubsequence(todos, ordered);
    if listName in cfg.summarize then
      var kept := Summarize(todos, cfg.alwaysShowPattern);
      SubsequenceTransitive(kept, todos, ordered);
      SubsequenceMembers(kept, todos);
      kept
    else
      SubsequenceReflexive(todos);
      todos
  }

  /** The rows for one configured list: its title row, then one row per
      displayed task. */
  function Section(cfg: Config, tasks: Tasks, users: Option<Users>, listName: string): (rows: seq<Row>)
    ensures |rows| >= 1
    ensures rows[0] == TitleRow(TitleColumnCount(cfg), HeadingOf(cfg, tasks, listName))
    ensures rows[1..] == TaskRows(cfg, users, Displayed(cfg, tasks, listName))
    ensures 0 <= cfg.maximumEntries ==> |rows| <= 1 + cfg.maximumEntries
  {
    [TitleRowOf(cfg, HeadingOf(cfg, tasks, listName))] + TaskRows(cfg, users, Displayed(cfg, tasks, listName))
  }

  /** The count badge of a summarized list is the stored total, whatever the
      ordering, truncation and pattern are. */
  lemma SectionCountIndependent(cfg: Config, tasks: Tasks, users: Option<Users>, listName: string,
                                maximumEntries: int, order: string, pattern: string)
    requires listName in cfg.summarize
    ensures Section(cfg, tasks, users, listName)[0].heading.total == Some(StoredCount(tasks, listName))
    ensures Section(cfg, tasks, users, listName)[0] ==
            Section(cfg.(maximumEntries := maximumEntries, order := order, alwaysShowPattern := pattern),
                    tasks, users, listName)[0]
  {
  }

  /** The names of the title rows, in order. */
  function Headings(rows: seq<Row>): seq<string> {
    if rows == [] then []
    else (if rows[0].TitleRow? then [rows[0].heading.listName] else []) + Headings(rows[1..])
  }

  lemma {:induction false} HeadingsAppend(a: seq<Row>, b: seq<Row>)
    ensures Headings(a + b) == Headings(a) + Headings(b)
    decreases |a|
  {
    if a != [] {
      HeadingsAppend(a[1..], b);
      var first := if a[0].TitleRow? then [a[0].heading.listName] else [];
      assert (a + b)[0] == a[0];
      assert (a + b)[1..] == a[1..] + b;
      assert Headings(a + b) == first + Headings(a[1..] + b);
      assert Headings(a) == first + Headings(a[1..]);
    } else {
      assert a + b == b;
    }
  }

  /** Task rows carry no heading. */
  lemma {:induction false} HeadingsOfTaskRows(rows: seq<Row>)
    requires forall i :: 0 <= i < |rows| ==> rows[i].TaskRow?
    ensures Headings(rows) == []
    decreases |rows|
  {
    if rows != [] {
      HeadingsOfTaskRows(rows[1..]);
    }
  }

  /** A section contributes exactly its own list name as heading. */
  lemma SectionHeadings(cfg: Config, tasks: Tasks, users: Option<Users>, listName: string)
    ensures Headings(Section(cfg, tasks, users, listName)) == [listName]
  {
    var rows := Section(cfg, tasks, users, listName);
    assert rows == [rows[0]] + rows[1..];
    HeadingsAppend([rows[0]], rows[1..]);
    HeadingsOfTaskRows(rows[1..]);
  }

  /** The sections of the given lists, one block per list. */
  function SectionBlocks(cfg: Config, tasks: Tasks, users: Option<Users>, lists: seq<string>): (blocks: seq<seq<Row>>)
    ensures |blocks| == |lists|
    ensures forall k :: 0 <= k < |lists| ==> blocks[k] == Section(cfg, tasks, users, lists[k])
  {
    seq(|lists|, k requires 0 <= k < |lists| => Section(cfg, tasks, users, lists[k]))
  }

  /** Where the rows of `lists[k]` start in the table: the number of rows the
      sections of the lists before it take up. */
  function SectionStart(cfg: Config, tasks: Tasks, users: Option<Users>, lists: seq<string>, k: nat): nat
    requires k <= |lists|
  {
    Start(SectionBlocks(cfg, tasks, users, lists), k)
  }

  /** The section of `lists[k]` sits in `rows` right after those of the lists
      before it. */
  predicate SectionAt(cfg: Config, tasks: Tasks, users: Option<Users>, lists: seq<string>, rows: seq<Row>, k: nat)
    requires k < |lists|
  {
    && SectionStart(cfg, tasks, users, lists, k) <= SectionStart(cfg, tasks, users, lists, k + 1) <= |rows|
    && rows[SectionStart(cfg, tasks, users, lists, k)..SectionStart(cfg, tasks, users, lists, k + 1)]
       == Section(cfg, tasks, users, lists[k])
  }

  /** Blocks that each name one list name the lists in order. */
  lemma {:induction false} HeadingsOfConcat(blocks: seq<seq<Row>>, names: seq<string>)
    requires |blocks| == |names|
    requires forall i :: 0 <= i < |blocks| ==> Headings(blocks[i]) == [names[i]]
    ensures Headings(Concat(blocks)) == names
    decreases |blocks|
  {
    if blocks != [] {
      var n := |blocks| - 1;
      HeadingsOfConcat(blocks[..n], names[..n]);
      HeadingsAppend(Concat(blocks[..n]), blocks[n]);
      assert names == names[..n] + [names[n]];
    }
  }

  /** Each list's section sits at its offset in the concatenated sections. */
  lemma SectionsLayout(cfg: Config, tasks: Tasks, users: Option<Users>, lists: seq<string>)
    ensures forall k :: 0 <= k < |lists| ==>
              SectionAt(cfg, tasks, users, lists, Concat(SectionBlocks(cfg, tasks, users, lists)), k)
  {
    var blocks := SectionBlocks(cfg, tasks, users, lists);
    ConcatBlocks(blocks);
    forall k | 0 <= k < |lists|
      ensures SectionAt(cfg, tasks, users, lists, Concat(blocks), k)
    {
      assert BlockAt(blocks, Concat(blocks), k);
    }
  }

  /** The concatenated sections name the lists in order. */
  lemma SectionsHeadings(cfg: Config, tasks: Tasks, users: Option<Users>, lists: seq<string>)
    ensures Headings(Concat(SectionBlocks(cfg, tasks, users, lists))) == lists
  {
    var blocks := SectionBlocks(cfg, tasks, users, lists);
    forall i | 0 <= i < |lists|
      ensures Headings(blocks[i]) == [lists[i]]
    {
      SectionHeadings(cfg, tasks, users, lists[i]);
    }
    HeadingsOfConcat(blocks, lists);
  }

  /** The table rows for the given lists: for each list in order, its
      section (title row, then task rows), the blocks laid end to end. */
  function Sections(cfg: Config, tasks: Tasks, users: Option<Users>, lists: seq<string>): (rows: seq<Row>)
    ensures Headings(rows) == lists
    ensures |rows| == SectionStart(cfg, tasks, users, lists, |lists|)
    ensures forall k :: 0 <= k < |lists| ==> SectionAt(cfg, tasks, users, lists, rows, k)
  {
    var blocks := SectionBlocks(cfg, tasks, users, lists);
    ConcatBlocks(blocks);
    SectionsLayout(cfg, tasks, users, lists);
    SectionsHeadings(cfg, tasks, users, lists);
    Concat(blocks)
  }

  /** Each list contributes at most 1 + `maximumEntries` rows. */
  lemma SectionsRowBudget(cfg: Config, tasks: Tasks, users: Option<Users>, lists: seq<string>)
    requires 0 <= cfg.maximumEntries
    ensures |Sections(cfg, tasks, users, lists)| <= |lists| * (1 + cfg.maximumEntries)
  {
    ConcatLengthBound(SectionBlocks(cfg, tasks, users, lists), 1 + cfg.maximumEntries);
  }

  /** The whole table: for each configured list in configuration order, its
      title row followed by its task rows. */
  function GetDom(cfg: Config, tasks: Tasks, users: Option<Users>): (rows: seq<Row>)
    ensures Headings(rows) == cfg.lists
    ensures |rows| == SectionStart(cfg, tasks, users, cfg.lists, |cfg.lists|)
    ensures forall k :: 0 <= k < |cfg.lists| ==> SectionAt(cfg, tasks, users, cfg.lists, rows, k)
    ensures 0 <= cfg.maximumEntries ==> |rows| <= |cfg.lists| * (1 + cfg.maximumEntries)
  {
    if 0 <= cfg.maximumEntries then
      SectionsRowBudget(cfg, tasks, users, cfg.lists);
      Sections(cfg, tasks, users, cfg.lists)
    else Sections(cfg, tasks, users, cfg.lists)
  }
}

=== FILE: node_helper.dfy ===
/** The back-end helper (node_helper.js): the user-initials directory, the
    `addLists` selection of remote lists, and the socket notification handler
    as a state-transition function. Completions of the remote SDK's
    asynchronous calls (client initialised, lists loaded, users loaded) are
    events delivered to the same handler; requests and failures of the SDK are
    not modelled. */
module NodeHelper {
  import opened Wrappers
  import opened Seqs
  import opened Todos
  import opened Registry

  // ---------------------------------------------------------------- getUsers

  /** A user record from the remote service. An empty `name` stands for any
      falsy name (empty, `null` or `undefined`); `email` is `None` when it is
      `null` or `undefined`. */
  datatype User = User(id: UserId, name: string, email: Option<string>)

  /** `user.name ? user.name[0] : user.email[0]`. The initial is `None` (the
      `undefined` the helper yields) for an empty email, and the expression
      throws when the name is falsy and the email missing. */
  function InitialOf(u: User): (c: Result<Option<char>, HandlerError>)
    ensures c.Failure? <==> u.name == "" && u.email.None?
    ensures u.name != "" ==> c == Success(Some(u.name[0]))
    ensures u.name == "" && u.email.Some? && u.email.value != "" ==> c == Success(Some(u.email.value[0]))
    ensures c == Success(None) <==> u.name == "" && u.email == Some("")
  {
    if u.name != "" then Success(Some(u.name[0]))
    else if u.email.None? then Failure(UserWithoutEmail)
    else if u.email.value != "" then Success(Some(u.email.value[0]))
    else Success(None)
  }

  /** A user known only by email is shown by the first letter of the email. */
  lemma InitialFromEmail()
    ensures InitialOf(User(7, "", Some("x@y.com"))) == Success(Some('x'))
  {
  }

  /** The (id, initial) assignments of the `getUsers` loop, in order. */
  function InitialAssignments(users: seq<User>): (pairs: seq<(UserId, Option<char>)>)
    requires forall u :: u in users ==> InitialOf(u).Success?
    ensures |pairs| == |users|
    ensures forall i :: 0 <= i < |users| ==> pairs[i] == (users[i].id, InitialOf(users[i]).value)
  {
    seq(|users|, i requires 0 <= i < |users| => (users[i].id, InitialOf(users[i]).value))
  }

  lemma InitialAssignmentIds(users: seq<User>)
    requires forall u :: u in users ==> InitialOf(u).Success?
    ensures (set p | p in InitialAssignments(users) :: p.0) == set u | u in users :: u.id
  {
    var pairs := InitialAssignments(users);
    var ids := set u | u in users :: u.id;
    forall id | id in ids
      ensures exists p :: p in pairs && p.0 == id
    {
      var u :| u in users && u.id == id;
      var i :| 0 <= i < |users| && users[i] == u;
      assert pairs[i] in pairs;
    }
  }

  /** The directory `getUsers` builds: user id to initial, the last record of
      a repeated id winning. The loop throws, and no directory is sent, when
      some user has neither a name nor an email. */
  function Initials(users: seq<User>): (dir: Result<map<UserId, Option<char>>, HandlerError>)
    ensures dir.Failure? <==> exists u :: u in users && InitialOf(u).Failure?
    ensures dir.Success? ==> dir.value.Keys == set u | u in users :: u.id
    ensures dir.Success? ==> forall i :: 0 <= i < |users| ==> users[i].id in dir.value
    ensures dir.Success? ==>
              forall i :: 0 <= i < |users| && (forall j :: i < j < |users| ==> users[j].id != users[i].id) ==>
                Success(dir.value[users[i].id]) == InitialOf(users[i])
  {
    if exists u :: u in users && InitialOf(u).Failure? then Failure(UserWithoutEmail)
    else
      var pairs := InitialAssignments(users);
      AssignAllLastWins(pairs);
      InitialAssignmentIds(users);
      assert forall i :: 0 <= i < |users| ==> users[i] in users;
      assert forall i :: 0 <= i < |users| && (forall j :: i < j < |users| ==> users[j].id != users[i].id) ==>
               LastAssignment(pairs, i);
      Success(AssignAll(pairs))
  }

  // ---------------------------------------------------------------- addLists

  /** The configuration payload fields the helper reads (the credentials are
      passed on to the SDK and fetchers and are not modelled). */
  datatype HelperConfig = HelperConfig(lists: seq<string>, interval: int)

  /** A list as returned by the remote "all lists" request. */
  datatype RemoteList = RemoteList(id: ListId, title: string)

  /** The `createFetcher` call a remote list would get: its id and title,
      and the interval converted from seconds to milliseconds. */
  function CallFor(l: RemoteList, cfg: HelperConfig): Call {
    Call(l.id, l.title, cfg.interval * 1000)
  }

  /** The call each remote list would get, in the order of the lists. */
  function CandidateCalls(lists: seq<RemoteList>, cfg: HelperConfig): (calls: seq<Call>)
    ensures |calls| == |lists|
    ensures forall i :: 0 <= i < |lists| ==> calls[i] == CallFor(lists[i], cfg)
  {
    seq(|lists|, i requires 0 <= i < |lists| => CallFor(lists[i], cfg))
  }

  /** Whether the list's title is one of the configured names. */
  predicate Configured(l: RemoteList, cfg: HelperConfig) {
    l.title in cfg.lists
  }

  /** The number of calls for each remote list after adding one list in front. */
  lemma AddListsCountStep(l: RemoteList, tail: seq<RemoteList>, rest: seq<Call>, calls: seq<Call>, cfg: HelperConfig)
    requires forall x :: multiset(rest)[CallFor(x, cfg)] == if Configured(x, cfg) then multiset(tail)[x] else 0
    requires calls == if Configured(l, cfg) then [CallFor(l, cfg)] + rest else rest
    ensures forall x :: multiset(calls)[CallFor(x, cfg)] == if Configured(x, cfg) then multiset([l] + tail)[x] else 0
  {
    forall x
      ensures multiset(calls)[CallFor(x, cfg)] == if Configured(x, cfg) then multiset([l] + tail)[x] else 0
    {
      assert multiset([l] + tail)[x] == multiset([l])[x] + multiset(tail)[x];
      if x != l {
        assert CallFor(x, cfg) != CallFor(l, cfg) by {
          assert x == RemoteList(x.id, x.title) && l == RemoteList(l.id, l.title);
        }
      }
      if Configured(l, cfg) {
        assert multiset(calls)[CallFor(x, cfg)] == multiset([CallFor(l, cfg)])[CallFor(x, cfg)] + multiset(rest)[CallFor(x, cfg)];
      }
    }
  }

  /** Which calls appear, after adding one list in front. */
  lemma AddListsMembersStep(l: RemoteList, tail: seq<RemoteList>, rest: seq<Call>, calls: seq<Call>, cfg: HelperConfig)
    requires |rest| <= |tail|
    requires forall c :: c in rest ==>
               c.name in cfg.lists && RemoteList(c.listId, c.name) in tail && c.interval == cfg.interval * 1000
    requires forall x :: x in tail && x.title in cfg.lists ==> CallFor(x, cfg) in rest
    requires calls == if Configured(l, cfg) then [CallFor(l, cfg)] + rest else rest
    ensures |calls| <= |[l] + tail|
    ensures forall c :: c in calls ==>
              c.name in cfg.lists && RemoteList(c.listId, c.name) in [l] + tail && c.interval == cfg.interval * 1000
    ensures forall x :: x in [l] + tail && x.title in cfg.lists ==> CallFor(x, cfg) in calls
  {
    assert forall x :: x in [l] + tail <==> x == l || x in tail;
    assert forall c :: c in calls ==> c in rest || c == CallFor(l, cfg);
  }

  /** The calls stay in the lists' order after adding one list in front. */
  lemma AddListsOrderStep(l: RemoteList, tail: seq<RemoteList>, rest: seq<Call>, calls: seq<Call>, cfg: HelperConfig)
    requires IsSubsequence(rest, CandidateCalls(tail, cfg))
    requires calls == if Configured(l, cfg) then [CallFor(l, cfg)] + rest else rest
    ensures IsSubsequence(calls, CandidateCalls([l] + tail, cfg))
  {
    var all := CandidateCalls([l] + tail, cfg);
    assert all[1..] == CandidateCalls(tail, cfg);
    if Configured(l, cfg) {
      assert calls[1..] == rest;
    }
  }

  /** The `createFetcher` calls `addLists` makes, in order: one per remote
      list whose title is configured, with the interval in milliseconds. */
  function AddListsCalls(lists: seq<RemoteList>, cfg: HelperConfig): (calls: seq<Call>)
    ensures |calls| <= |lists|
    ensures forall c :: c in calls ==>
              c.name in cfg.lists && RemoteList(c.listId, c.name) in lists && c.interval == cfg.interval * 1000
    ensures forall l :: l in lists && l.title in cfg.lists ==> CallFor(l, cfg) in calls
    // one call per matching list, in the lists' order
    ensures forall l :: multiset(calls)[CallFor(l, cfg)] == if Configured(l, cfg) then multiset(lists)[l] else 0
    ensures IsSubsequence(calls, CandidateCalls(lists, cfg))
    decreases |lists|
  {
    if lists == [] then []
    else
      var l := lists[0];
      var rest := AddListsCalls(lists[1..], cfg);
      var calls := if Configured(l, cfg) then [CallFor(l, cfg)] + rest else rest;
      assert lists == [l] + lists[1..];
      AddListsMembersStep(l, lists[1..], rest, calls, cfg);
      AddListsCountStep(l, lists[1..], rest, calls, cfg);
      AddListsOrderStep(l, lists[1..], rest, calls, cfg);
      calls
  }

  /** Ids of the remote lists whose title is configured. */
  function ConfiguredIds(lists: seq<RemoteList>, cfg: HelperConfig): set<ListId> {
    set l | l in lists && l.title in cfg.lists :: l.id
  }

  /** `addLists` registers exactly the configured remote lists, every one of
      them running at the configured interval (seconds to milliseconds), and
      touches no other entry. */
  lemma AddListsRegistersConfigured(reg: Registry, lists: seq<RemoteList>, cfg: HelperConfig)
    requires Valid(reg)
    ensures var r := CreateAll(reg, AddListsCalls(lists, cfg));
            && Valid(r)
            && r.fetchers.Keys == reg.fetchers.Keys + ConfiguredIds(lists, cfg)
            && (forall l :: l in lists && l.title in cfg.lists ==> r.fetchers[l.id].instance.interval == cfg.interval * 1000)
            && (forall k :: k in reg.fetchers && k !in ConfiguredIds(lists, cfg) ==>
                  r.fetchers[k] == reg.fetchers[k])
  {
    var calls := AddListsCalls(lists, cfg);
    var r := CreateAll(reg, calls);
    CreateAllKeys(reg, calls);
    CreateAllFrame(reg, calls);
    assert CallIds(calls) == ConfiguredIds(lists, cfg) by {
      forall id | id in CallIds(calls)
        ensures id in ConfiguredIds(lists, cfg)
      {
        var c :| c in calls && c.listId == id;
        assert RemoteList(c.listId, c.name) in lists;
      }
      forall l | l in lists && l.title in cfg.lists
        ensures l.id in CallIds(calls)
      {
        assert Call(l.id, l.title, cfg.interval * 1000) in calls;
      }
    }
    forall l | l in lists && l.title in cfg.lists
      ensures r.fetchers[l.id].instance.interval == cfg.interval * 1000
    {
      LastCallInterval(reg, calls, l.id, cfg.interval * 1000);
    }
  }

  /** When every call passes the same interval, each called id ends at it. */
  lemma LastCallInterval(reg: Registry, calls: seq<Call>, id: ListId, interval: int)
    requires forall c :: c in calls ==> c.interval == interval
    requires id in CallIds(calls)
    ensures id in CreateAll(reg, calls).fetchers
    ensures CreateAll(reg, calls).fetchers[id].instance.interval == interval
  {
    var i := LastIndexOf(calls, id);
    CreateAllLastInterval(reg, calls, i);
  }

  /** The position of the last call for `id`. */
  function LastIndexOf(calls: seq<Call>, id: ListId): (i: nat)
    requires id in CallIds(calls)
    ensures i < |calls| && calls[i].listId == id
    ensures forall j :: i < j < |calls| ==> calls[j].listId != id
    decreases |calls|
  {
    var n := |calls| - 1;
    if calls[n].listId == id then n
    else
      assert calls == calls[..n] + [calls[n]];
      assert id in CallIds(calls[..n]);
      LastIndexOf(calls[..n], id)
  }

  // ------------------------------------------------- socketNotificationReceived

  /** The helper's state: the configuration payload (none before `CONFIG`),
      whether an SDK client exists, `started`, the remote lists (none until
      loaded) and the fetcher registry. */
  datatype Helper = Helper(
    config: Option<HelperConfig>,
    hasClient: bool,
    started: bool,
    lists: Option<seq<RemoteList>>,
    registry: Registry)

  /** The helper's state after `start`. */
  const Initial := Helper(None, false, false, None, Empty)

  /** What the handler reacts to: the four socket notifications from the
      display, and the completions of the SDK's asynchronous calls. */
  datatype Event =
    | ConfigMsg(payload: HelperConfig)
    | AddListsMsg(names: seq<string>)
    | ConnectedMsg
    | GetUsersMsg
    | ClientInitialized
    | ListsLoaded(remote: seq<RemoteList>)
    | UsersLoaded(users: seq<User>)

  /** Notifications sent to the display. */
  datatype Notice =
    | Started
    | TasksNotice(todos: map<string, seq<Task>>)
    | UsersNotice(initials: map<UserId, Option<char>>)

  /** The `TypeError`s the handler throws when a notification arrives before
      the state it reads exists: `addLists` before the remote lists, or with
      remote lists before any configuration, and `getUsers` before a client;
      and the `getUsers` callback on a user with neither name nor email. */
  datatype HandlerError = ListsNotLoaded | NotConfigured | NoClient | UserWithoutEmail

  /** The state after an event and the notifications it sends. */
  datatype Reaction = Reaction(next: Helper, sent: seq<Notice>)

  /** Handle one event. `order` is the enumeration order of the `fetchers`
      object, which the broadcast on `CONNECTED` follows. */
  function Step(h: Helper, e: Event, order: seq<ListId>): (r: Result<Reaction, HandlerError>)
    requires e.ConnectedMsg? ==> Enumerates(order, h.registry.fetchers)
    // `started` is set only by the client's initialisation, and never cleared
    ensures r.Success? ==> (r.value.next.started <==> h.started || e.ClientInitialized?)
    // CONFIG is a no-op once started
    ensures e.ConfigMsg? && h.started ==> r == Success(Reaction(h, []))
    // the registry changes only on addLists
    ensures r.Success? && !e.AddListsMsg? ==> r.value.next.registry == h.registry
    ensures r.Failure? <==>
              || (e.AddListsMsg? && (h.lists.None? || (h.config.None? && h.lists.value != [])))
              || (e.GetUsersMsg? && !h.hasClient)
              || (e.UsersLoaded? && exists u :: u in e.users && InitialOf(u).Failure?)
    // CONFIG before start stores the payload and marks the client as created
    ensures e.ConfigMsg? && !h.started ==>
              r == Success(Reaction(h.(config := Some(e.payload), hasClient := true), []))
    // addLists sends nothing and changes nothing but the registry
    ensures e.AddListsMsg? && r.Success? ==> r.value.sent == [] && r.value.next.(registry := h.registry) == h
    // with no configuration only an empty remote list is handled, and nothing happens
    ensures e.AddListsMsg? && r.Success? && h.config.None? ==> r == Success(Reaction(h, []))
    // otherwise the registry makes one `createFetcher` call per configured remote list, in order
    ensures e.AddListsMsg? && r.Success? ==>
              r.value.next.registry == if h.config.Some? then CreateAll(h.registry, AddListsCalls(h.lists.value, h.config.value)) else h.registry
    // CONNECTED broadcasts one snapshot, keyed by the recorded names
    ensures e.ConnectedMsg? ==>
              && r.Success? && r.value.next == h && |r.value.sent| == 1
              && r.value.sent[0] == TasksNotice(BroadcastTodos(h.registry.fetchers, order))
              && r.value.sent[0].todos.Keys == set k | k in h.registry.fetchers :: h.registry.fetchers[k].name
    // getUsers only starts the request
    ensures e.GetUsersMsg? && r.Success? ==> r.value == Reaction(h, [])
    // the client's initialisation sets `started` and nothing else
    ensures e.ClientInitialized? ==> r == Success(Reaction(h.(started := true), []))
    // the remote lists are stored and the display told the helper started
    ensures e.ListsLoaded? ==> r.Success? && r.value.next == h.(lists := Some(e.remote)) && r.value.sent == [Started]
    // the users arrive: the directory of initials is sent on
    ensures e.UsersLoaded? && r.Success? ==>
              && Initials(e.users).Success? && r.value.next == h
              && r.value.sent == [UsersNotice(Initials(e.users).value)]
  {
    match e
    case ConfigMsg(payload) =>
      if h.started then Success(Reaction(h, []))
      else Success(Reaction(h.(config := Some(payload), hasClient := true), []))
    case AddListsMsg(_) =>
      if h.lists.None? then Failure(ListsNotLoaded)
      else if h.config.None? then
        // `config.lists` is read only once there is a remote list to test
        if h.lists.value == [] then Success(Reaction(h, [])) else Failure(NotConfigured)
      else
        var calls := AddListsCalls(h.lists.value, h.config.value);
        Success(Reaction(h.(registry := CreateAll(h.registry, calls)), []))
    case ConnectedMsg =>
      Success(Reaction(h, [TasksNotice(BroadcastTodos(h.registry.fetchers, order))]))
    case GetUsersMsg =>
      if h.hasClient then Success(Reaction(h, [])) else Failure(NoClient)
    case ClientInitialized =>
      Success(Reaction(h.(started := true), []))
    case ListsLoaded(remote) =>
      Success(Reaction(h.(lists := Some(remote)), [Started]))
    case UsersLoaded(users) =>
      match Initials(users)
      case Failure(err) => Failure(err)
      case Success(dir) => Success(Reaction(h, [UsersNotice(dir)]))
  }

  /** The handler keeps the registry valid. */
  lemma StepKeepsRegistryValid(h: Helper, e: Event, order: seq<ListId>)
    requires e.ConnectedMsg? ==> Enumerates(order, h.registry.fetchers)
    requires Valid(h.registry)
    ensures Step(h, e, order).Success? ==> Valid(Step(h, e, order).value.next.registry)
  {
    if e.AddListsMsg? && h.lists.Some? && h.config.Some? {
      CreateAllKeys(h.registry, AddListsCalls(h.lists.value, h.config.value));
    }
  }

  /** A handled `addLists` registers exactly the configured remote lists at
      the configured interval in milliseconds, and leaves the other entries
      alone. */
  lemma StepAddListsRegisters(h: Helper, names: seq<string>, order: seq<ListId>)
    requires h.lists.Some? && h.config.Some? && Valid(h.registry)
    ensures var r := Step(h, AddListsMsg(names), order);
            && r.Success?
            && Valid(r.value.next.registry)
            && r.value.next.registry.fetchers.Keys == h.registry.fetchers.Keys + ConfiguredIds(h.lists.value, h.config.value)
            && (forall l :: l in h.lists.value && l.title in h.config.value.lists ==>
                  r.value.next.registry.fetchers[l.id].instance.interval == h.config.value.interval * 1000)
            && (forall k :: k in h.registry.fetchers && k !in ConfiguredIds(h.lists.value, h.config.value) ==>
                  r.value.next.registry.fetchers[k] == h.registry.fetchers[k])
  {
    AddListsRegistersConfigured(h.registry, h.lists.value, h.config.value);
  }

  /** `addLists` reads the configuration received with `CONFIG`, not its own
      payload. */
  lemma AddListsIgnoresPayload(h: Helper, names1: seq<string>, names2: seq<string>, order: seq<ListId>)
    ensures Step(h, AddListsMsg(names1), order) == Step(h, AddListsMsg(names2), order)
  {
  }

  /** A second `CONFIG` before the client finishes initialising still takes
      effect: only a completed initialisation shields the configuration. */
  lemma ConfigBeforeStartReplaces(p1: HelperConfig, p2: HelperConfig, order: seq<ListId>)
    ensures var h1 := Step(Initial, ConfigMsg(p1), order).value.next;
            var h2 := Step(h1, ConfigMsg(p2), order).value.next;
            && !h2.started
            && h2.config == Some(p2)
  {
  }

  /** Once started, a later `CONFIG` leaves the configuration alone. */
  lemma ConfigAfterStartIgnored(p1: HelperConfig, p2: HelperConfig, order: seq<ListId>)
    ensures var h1 := Step(Initial, ConfigMsg(p1), order).value.next;
            var h2 := Step(h1, ClientInitialized, order).value.next;
            var h3 := Step(h2, ConfigMsg(p2), order).value.next;
            && h2.started
            && h3.config == Some(p1)
  {
  }
}

=== FILE: registry.dfy ===
/** The helper's fetcher registry (node_helper.js, `createFetcher` and
    `broadcastTodos`): a map from list id to the recorded list name and the
    fetcher polling that list. A fetcher is an abstract record; its timers,
    busy flag and remote calls are not modelled, only the calls the registry
    makes on it. */
module Registry {
  import opened Seqs
  import opened Todos

  /** A list fetcher as the registry sees it: its list, its reload interval
      (milliseconds), its cached items, and how often `startFetch` and
      `broadcastItems` have been called on it. */
  datatype Fetcher = Fetcher(
    listId: ListId,
    name: string,
    interval: int,
    items: seq<Task>,
    fetchStarts: nat,
    broadcasts: nat)

  /** A registry entry: `{name, instance}`. */
  datatype Entry = Entry(name: string, instance: Fetcher)

  /** The registry: `fetchers`, plus the number of fetchers ever constructed. */
  datatype Registry = Registry(fetchers: map<ListId, Entry>, constructed: nat)

  const Empty := Registry(map[], 0)

  /** A freshly constructed fetcher: nothing cached, nothing called yet. */
  function NewFetcher(listId: ListId, name: string, interval: int): Fetcher {
    Fetcher(listId, name, interval, [], 0, 0)
  }

  function StartFetch(f: Fetcher): Fetcher {
    f.(fetchStarts := f.fetchStarts + 1)
  }

  function SetReloadInterval(f: Fetcher, interval: int): Fetcher {
    f.(interval := interval)
  }

  function BroadcastItems(f: Fetcher): Fetcher {
    f.(broadcasts := f.broadcasts + 1)
  }

  /** Every entry holds the fetcher for its own list, under the name that
      fetcher was built with, and each constructed fetcher is still registered
      (none was built twice or dropped). */
  ghost predicate Valid(reg: Registry) {
    && (forall k :: k in reg.fetchers ==> reg.fetchers[k].instance.listId == k)
    && (forall k :: k in reg.fetchers ==> reg.fetchers[k].instance.name == reg.fetchers[k].name)
    && reg.constructed == |reg.fetchers.Keys|
  }

  /** `createFetcher(listID, list, reloadInterval)`. */
  function CreateFetcher(reg: Registry, listId: ListId, name: string, interval: int): (r: Registry)
    ensures r.fetchers.Keys == reg.fetchers.Keys + {listId}
    ensures forall k :: k in reg.fetchers && k != listId ==> r.fetchers[k] == reg.fetchers[k]
    // both branches: the fetcher runs at the given interval and is started once more
    ensures r.fetchers[listId].instance.interval == interval
    ensures r.fetchers[listId].instance.fetchStarts ==
              1 + if listId in reg.fetchers then reg.fetchers[listId].instance.fetchStarts else 0
    // a fresh id: one new fetcher, recorded under the given name
    ensures listId !in reg.fetchers ==>
              && r.constructed == reg.constructed + 1
              && r.fetchers[listId].name == name
              && r.fetchers[listId].instance == Fetcher(listId, name, interval, [], 1, 0)
    // a known id: no new fetcher, original name kept, items re-broadcast once
    ensures listId in reg.fetchers ==>
              && r.constructed == reg.constructed
              && r.fetchers[listId].name == reg.fetchers[listId].name
              && r.fetchers[listId].instance.listId == reg.fetchers[listId].instance.listId
              && r.fetchers[listId].instance.name == reg.fetchers[listId].instance.name
              && r.fetchers[listId].instance.items == reg.fetchers[listId].instance.items
              && r.fetchers[listId].instance.broadcasts == reg.fetchers[listId].instance.broadcasts + 1
    ensures Valid(reg) ==> Valid(r)
  {
    if listId !in reg.fetchers then
      var fetcher := NewFetcher(listId, name, interval);
      Registry(reg.fetchers[listId := Entry(name, StartFetch(fetcher))], reg.constructed + 1)
    else
      var entry := reg.fetchers[listId];
      var fetcher := BroadcastItems(SetReloadInterval(entry.instance, interval));
      Registry(reg.fetchers[listId := entry.(instance := StartFetch(fetcher))], reg.constructed)
  }

  /** Repeating a call registers nothing new. */
  lemma CreateFetcherRepeat(reg: Registry, listId: ListId, name: string, interval: int)
    ensures var once := CreateFetcher(reg, listId, name, interval);
            var twice := CreateFetcher(once, listId, name, interval);
            && twice.fetchers.Keys == once.fetchers.Keys
            && twice.constructed == once.constructed
            && twice.fetchers[listId].name == once.fetchers[listId].name
  {
  }

  /** The arguments of one `createFetcher` call. */
  datatype Call = Call(listId: ListId, name: string, interval: int)

  /** The registry after a sequence of `createFetcher` calls. */
  function CreateAll(reg: Registry, calls: seq<Call>): Registry
    decreases |calls|
  {
    if calls == [] then reg
    else CreateAll(CreateFetcher(reg, calls[0].listId, calls[0].name, calls[0].interval), calls[1..])
  }

  function CallIds(calls: seq<Call>): set<ListId> {
    set c | c in calls :: c.listId
  }

  lemma CallIdsCons(calls: seq<Call>)
    requires calls != []
    ensures CallIds(calls) == {calls[0].listId} + CallIds(calls[1..])
  {
    assert calls == [calls[0]] + calls[1..];
  }

  /** After any sequence of calls the registry holds exactly the ids it held
      plus the ids passed, with still one fetcher per id. */
  lemma {:induction false} CreateAllKeys(reg: Registry, calls: seq<Call>)
    requires Valid(reg)
    ensures CreateAll(reg, calls).fetchers.Keys == reg.fetchers.Keys + CallIds(calls)
    ensures Valid(CreateAll(reg, calls))
    decreases |calls|
  {
    if calls != [] {
      var c := calls[0];
      CreateAllKeys(CreateFetcher(reg, c.listId, c.name, c.interval), calls[1..]);
      CallIdsCons(calls);
    }
  }

  /** Entries whose id is never passed are left as they were. */
  lemma {:induction false} CreateAllFrame(reg: Registry, calls: seq<Call>)
    ensures forall k :: k in reg.fetchers && k !in CallIds(calls) ==>
              k in CreateAll(reg, calls).fetchers && CreateAll(reg, calls).fetchers[k] == reg.fetchers[k]
    decreases |calls|
  {
    if calls != [] {
      var c := calls[0];
      CreateAllFrame(CreateFetcher(reg, c.listId, c.name, c.interval), calls[1..]);
      CallIdsCons(calls);
    }
  }

  /** Each id passed ends up at the interval of its last call. */
  lemma {:induction false} CreateAllLastInterval(reg: Registry, calls: seq<Call>, i: int)
    requires 0 <= i < |calls|
    requires forall j :: i < j < |calls| ==> calls[j].listId != calls[i].listId
    ensures calls[i].listId in CreateAll(reg, calls).fetchers
    ensures CreateAll(reg, calls).fetchers[calls[i].listId].instance.interval == calls[i].interval
    decreases |calls|
  {
    var c := calls[0];
    var next := CreateFetcher(reg, c.listId, c.name, c.interval);
    if i == 0 {
      CreateAllFrame(next, calls[1..]);
    } else {
      assert calls[1..][i - 1] == calls[i];
      CreateAllLastInterval(next, calls[1..], i - 1);
    }
  }

  /** Starting from the empty registry, the number of fetchers ever built is
      the number of distinct ids passed. */
  lemma OneFetcherPerId(calls: seq<Call>)
    ensures CreateAll(Empty, calls).fetchers.Keys == CallIds(calls)
    ensures CreateAll(Empty, calls).constructed == |CallIds(calls)|
    ensures Valid(CreateAll(Empty, calls))
  {
    CreateAllKeys(Empty, calls);
  }

  // ----------------------------------------------------------- broadcastTodos

  /** `order` lists each registered id exactly once: the enumeration order of
      the `fetchers` object in a `for ... in` loop. */
  ghost predicate Enumerates(order: seq<ListId>, fetchers: map<ListId, Entry>) {
    && (forall i :: 0 <= i < |order| ==> order[i] in fetchers)
    && (forall k :: k in fetchers ==> k in order)
    && (forall i, j :: 0 <= i < j < |order| ==> order[i] != order[j])
  }

  /** The (name, items) assignments the broadcast loop performs, in order. */
  function SnapshotAssignments(fetchers: map<ListId, Entry>, order: seq<ListId>): (pairs: seq<(string, seq<Task>)>)
    requires forall i :: 0 <= i < |order| ==> order[i] in fetchers
    ensures |pairs| == |order|
    ensures forall i :: 0 <= i < |order| ==>
              pairs[i] == (fetchers[order[i]].name, fetchers[order[i]].instance.items)
  {
    seq(|order|, i requires 0 <= i < |order| => (fetchers[order[i]].name, fetchers[order[i]].instance.items))
  }

  /** The assigned names are exactly the recorded names of the registered
      fetchers. */
  lemma SnapshotAssignmentNames(fetchers: map<ListId, Entry>, order: seq<ListId>)
    requires Enumerates(order, fetchers)
    ensures (set p | p in SnapshotAssignments(fetchers, order) :: p.0) == set k | k in fetchers :: fetchers[k].name
  {
    var pairs := SnapshotAssignments(fetchers, order);
    var names := set p | p in pairs :: p.0;
    forall name | name in names
      ensures exists k :: k in fetchers && fetchers[k].name == name
    {
      var p :| p in pairs && p.0 == name;
      var i :| 0 <= i < |pairs| && pairs[i] == p;
      assert fetchers[order[i]].name == name;
    }
    forall k | k in fetchers
      ensures fetchers[k].name in names
    {
      var i :| 0 <= i < |order| && order[i] == k;
      assert pairs[i] in pairs;
    }
  }

  /** Each enumerated fetcher whose name no later fetcher repeats leaves its
      items under that name in the built object. */
  lemma SnapshotLastWins(fetchers: map<ListId, Entry>, order: seq<ListId>)
    requires Enumerates(order, fetchers)
    ensures forall i :: 0 <= i < |order| ==> fetchers[order[i]].name in AssignAll(SnapshotAssignments(fetchers, order))
    ensures forall i :: 0 <= i < |order| && (forall j :: i < j < |order| ==> fetchers[order[j]].name != fetchers[order[i]].name) ==>
              AssignAll(SnapshotAssignments(fetchers, order))[fetchers[order[i]].name] == fetchers[order[i]].instance.items
  {
    var pairs := SnapshotAssignments(fetchers, order);
    AssignAllLastWins(pairs);
    forall i | 0 <= i < |order|
      ensures fetchers[order[i]].name in AssignAll(pairs)
    {
      assert pairs[i] in pairs;
    }
    forall i | 0 <= i < |order| && (forall j :: i < j < |order| ==> fetchers[order[j]].name != fetchers[order[i]].name)
      ensures AssignAll(pairs)[fetchers[order[i]].name] == fetchers[order[i]].instance.items
    {
      assert LastAssignment(pairs, i);
    }
  }

  /** `broadcastTodos`: the snapshot mapping list names to cached items. */
  function BroadcastTodos(fetchers: map<ListId, Entry>, order: seq<ListId>): (todos: map<string, seq<Task>>)
    requires Enumerates(order, fetchers)
    // keys: exactly the recorded names of the registered fetchers
    ensures todos.Keys == set k | k in fetchers :: fetchers[k].name
    ensures forall i :: 0 <= i < |order| ==> fetchers[order[i]].name in todos
    // values: the items of the last enumerated fetcher with that name
    ensures forall i :: 0 <= i < |order| && (forall j :: i < j < |order| ==> fetchers[order[j]].name != fetchers[order[i]].name) ==>
              todos[fetchers[order[i]].name] == fetchers[order[i]].instance.items
  {
    var pairs := SnapshotAssignments(fetchers, order);
    AssignAllLastWins(pairs);
    SnapshotAssignmentNames(fetchers, order);
    SnapshotLastWins(fetchers, order);
    AssignAll(pairs)
  }

  /** With distinct recorded names, every registered fetcher's items appear
      under its name, whatever the enumeration order. */
  lemma SnapshotDistinctNames(fetchers: map<ListId, Entry>, order: seq<ListId>)
    requires Enumerates(order, fetchers)
    requires forall a, b :: a in fetchers && b in fetchers && a != b ==> fetchers[a].name != fetchers[b].name
    ensures forall k :: k in fetchers ==> BroadcastTodos(fetchers, order)[fetchers[k].name] == fetchers[k].instance.items
  {
    forall k | k in fetchers
      ensures BroadcastTodos(fetchers, order)[fetchers[k].name] == fetchers[k].instance.items
    {
      var i :| 0 <= i < |order| && order[i] == k;
      assert forall j :: i < j < |order| ==> fetchers[order[j]].name != fetchers[order[i]].name;
    }
  }
}

=== FILE: seqs.dfy ===
/** Sequence and object helpers that mirror the JavaScript built-ins the
    program relies on: `Array.prototype.reverse`, `slice(0, n)`,
    `String.prototype.search` (as substring search), and the "assign keys in
    order" pattern used to build plain objects. */
module Seqs {

  /** The sequence read back to front (`arr.slice().reverse()`). */
  function Reverse<T>(s: seq<T>): (r: seq<T>)
    ensures |r| == |s|
    ensures forall i :: 0 <= i < |s| ==> r[i] == s[|s| - 1 - i]
  {
    if s == [] then [] else Reverse(s[1..]) + [s[0]]
  }

  /** Reversing twice gives the original sequence back. */
  lemma ReverseInvolutive<T>(s: seq<T>)
    ensures Reverse(Reverse(s)) == s
  {
    var r := Reverse(Reverse(s));
    assert |r| == |s|;
    forall i | 0 <= i < |s|
      ensures r[i] == s[i]
    {
    }
  }

  /** The end index `arr.slice(0, n)` resolves to on an array of length `len`:
      a negative `n` counts back from the end, and the index is clamped to
      `[0, len]`. */
  function SliceEnd(len: nat, n: int): (e: nat)
    ensures e <= len
    ensures 0 <= n ==> e == if n < len then n else len
    ensures n < 0 ==> e == if len + n < 0 then 0 else len + n
  {
    if n < 0 then (if len + n < 0 then 0 else len + n)
    else if n < len then n
    else len
  }

  /** `s.slice(0, n)`: a prefix of `s`. */
  function Take<T>(s: seq<T>, n: int): (r: seq<T>)
    ensures r <= s
    ensures |r| == SliceEnd(|s|, n)
    ensures 0 <= n ==> |r| <= n
  {
    s[..SliceEnd(|s|, n)]
  }

  /** `a` is `b` with some elements dropped, the rest kept in order. */
  predicate IsSubsequence<T(==)>(a: seq<T>, b: seq<T>)
    decreases |b|
  {
    || |a| == 0
    || (&& |b| > 0
        && ((a[0] == b[0] && IsSubsequence(a[1..], b[1..])) || IsSubsequence(a, b[1..])))
  }

  /** Every element of a subsequence occurs in the sequence it was taken from. */
  lemma {:induction false} SubsequenceMembers<T>(a: seq<T>, b: seq<T>)
    requires IsSubsequence(a, b)
    ensures forall x :: x in a ==> x in b
    ensures |a| <= |b|
    decreases |b|
  {
    if |a| == 0 {
    } else if a[0] == b[0] && IsSubsequence(a[1..], b[1..]) {
      SubsequenceMembers(a[1..], b[1..]);
      forall x | x in a
        ensures x in b
      {
        if x != a[0] {
          assert x in a[1..];
        }
      }
    } else {
      SubsequenceMembers(a, b[1..]);
    }
  }

  /** Every sequence is a subsequence of itself. */
  lemma {:induction false} SubsequenceReflexive<T>(a: seq<T>)
    ensures IsSubsequence(a, a)
    decreases |a|
  {
    if |a| > 0 {
      SubsequenceReflexive(a[1..]);
    }
  }

  /** A prefix is a subsequence. */
  lemma {:induction false} PrefixIsSubsequence<T>(a: seq<T>, b: seq<T>)
    requires a <= b
    ensures IsSubsequence(a, b)
    decreases |b|
  {
    if |a| > 0 {
      assert a[1..] <= b[1..];
      PrefixIsSubsequence(a[1..], b[1..]);
    }
  }

  /** Subsequences compose. */
  lemma {:induction false} SubsequenceTransitive<T>(a: seq<T>, b: seq<T>, c: seq<T>)
    requires IsSubsequence(a, b) && IsSubsequence(b, c)
    ensures IsSubsequence(a, c)
    decreases |c|
  {
    if |a| == 0 {
    } else {
      SubsequenceMembers(a, b);
      assert |b| > 0;
      if b[0] == c[0] && IsSubsequence(b[1..], c[1..]) {
        if a[0] == b[0] && IsSubsequence(a[1..], b[1..]) {
          SubsequenceTransitive(a[1..], b[1..], c[1..]);
        } else {
          SubsequenceTransitive(a, b[1..], c[1..]);
        }
      } else {
        SubsequenceTransitive(a, b, c[1..]);
      }
    }
  }

  /** Blocks laid end to end. */
  function Concat<T>(blocks: seq<seq<T>>): seq<T> {
    if blocks == [] then [] else Concat(blocks[..|blocks| - 1]) + blocks[|blocks| - 1]
  }

  /** Where block `k` starts in `Concat(blocks)`: the total length of the
      blocks before it. */
  function Start<T>(blocks: seq<seq<T>>, k: nat): nat
    requires k <= |blocks|
  {
    if k == 0 then 0 else Start(blocks, k - 1) + |blocks[k - 1]|
  }

  /** Offsets depend only on the blocks before them. */
  lemma {:induction false} StartPrefix<T>(blocks: seq<seq<T>>, n: nat, k: nat)
    requires k <= n <= |blocks|
    ensures Start(blocks, k) == Start(blocks[..n], k)
    decreases k
  {
    if k > 0 {
      StartPrefix(blocks, n, k - 1);
      assert blocks[..n][k - 1] == blocks[k - 1];
    }
  }

  /** Block `k` sits in `whole` between its start and the next block's start. */
  predicate BlockAt<T(==)>(blocks: seq<seq<T>>, whole: seq<T>, k: nat)
    requires k < |blocks|
  {
    && Start(blocks, k) <= Start(blocks, k + 1) <= |whole|
    && whole[Start(blocks, k)..Start(blocks, k + 1)] == blocks[k]
  }

  /** Every block of the concatenation is found between its start and the
      next block's start. */
  lemma {:induction false} ConcatBlocks<T>(blocks: seq<seq<T>>)
    ensures |Concat(blocks)| == Start(blocks, |blocks|)
    ensures forall k :: 0 <= k < |blocks| ==> BlockAt(blocks, Concat(blocks), k)
    decreases |blocks|
  {
    if blocks != [] {
      var n := |blocks| - 1;
      var init := blocks[..n];
      var prev := Concat(init);
      var all := Concat(blocks);
      ConcatBlocks(init);
      StartPrefix(blocks, n, n);
      forall k | 0 <= k < |blocks|
        ensures BlockAt(blocks, all, k)
      {
        if k < n {
          StartPrefix(blocks, n, k);
          StartPrefix(blocks, n, k + 1);
          assert BlockAt(init, prev, k);
          assert init[k] == blocks[k];
          assert all[Start(blocks, k)..Start(blocks, k + 1)] == prev[Start(blocks, k)..Start(blocks, k + 1)];
        } else {
          assert all[|prev|..] == blocks[n];
        }
      }
    }
  }

  /** Blocks of at most `m` elements each concatenate to at most `|blocks| * m`. */
  lemma {:induction false} ConcatLengthBound<T>(blocks: seq<seq<T>>, m: nat)
    requires forall i :: 0 <= i < |blocks| ==> |blocks[i]| <= m
    ensures |Concat(blocks)| <= |blocks| * m
    decreases |blocks|
  {
    if blocks != [] {
      var n := |blocks| - 1;
      ConcatLengthBound(blocks[..n], m);
      assert |blocks| * m == n * m + m;
    }
  }

  /** `pattern` occurs in `text` starting at index `i`. */
  predicate OccursAt(text: string, pattern: string, i: int) {
    0 <= i <= |text| - |pattern| && text[i..i + |pattern|] == pattern
  }

  /** `pattern` occurs somewhere inside `text`. */
  predicate Contains(text: string, pattern: string) {
    exists i | 0 <= i <= |text| :: OccursAt(text, pattern, i)
  }

  /** The object built by the loop `for each (k, v) in pairs: obj[k] = v`,
      starting from `{}`: later assignments to the same key overwrite earlier
      ones. */
  function AssignAll<K, V>(pairs: seq<(K, V)>): (m: map<K, V>)
  {
    if pairs == [] then map[]
    else AssignAll(pairs[..|pairs| - 1])[pairs[|pairs| - 1].0 := pairs[|pairs| - 1].1]
  }

  /** No pair after index `i` assigns the key `pairs[i]` assigns. */
  ghost predicate LastAssignment<K, V>(pairs: seq<(K, V)>, i: int)
    requires 0 <= i < |pairs|
  {
    forall j :: i < j < |pairs| ==> pairs[j].0 != pairs[i].0
  }

  /** The keys of the built object are exactly the assigned keys, and each key
      holds the value of its last assignment. */
  lemma {:induction false} AssignAllLastWins<K, V>(pairs: seq<(K, V)>)
    ensures AssignAll(pairs).Keys == set p | p in pairs :: p.0
    ensures forall i :: 0 <= i < |pairs| && LastAssignment(pairs, i) ==>
              AssignAll(pairs)[pairs[i].0] == pairs[i].1
  {
    if pairs != [] {
      var n := |pairs| - 1;
      var init := pairs[..n];
      AssignAllLastWins(init);
      assert pairs == init + [pairs[n]];
      forall i | 0 <= i < |pairs| && LastAssignment(pairs, i)
        ensures AssignAll(pairs)[pairs[i].0] == pairs[i].1
      {
        if i < n {
          assert pairs[n].0 != pairs[i].0;
          assert init[i] == pairs[i];
          assert LastAssignment(init, i);
        }
      }
    }
  }
}

=== FILE: todos.dfy ===
/** The records the two halves of the widget exchange: tasks as cached by a
    list fetcher and broadcast to the display, and the identifiers they use. */
module Todos {
  import opened Wrappers

  /** Identifier of a remote task list (a number in the remote API). */
  type ListId = int

  /** Identifier of a remote user (a number in the remote API). */
  type UserId = int

  /** A task as received from the remote service. Only the fields the display
      reads are kept: `title`, `starred`, `assignee_id` and `due_date`. */
  datatype Task = Task(title: string, starred: bool, assignee: Option<UserId>, due: Option<string>)
}

=== FILE: wrappers.dfy ===
/** Optional values and results with an error case, used where the JavaScript
    program has `undefined` values or throws. */
module Wrappers {

  /** A value that may be missing (JavaScript's `undefined`). */
  datatype Option<+T> = None | Some(value: T)

  /** The outcome of a handler: a value, or the error the JavaScript handler throws. */
  datatype Result<+R, +E> = Success(value: R) | Failure(error: E)
}
